=== FILE: README.md ===
# Movie recommendation core

A model in Dafny of the two algorithmic functions of `Recommend.py`, a script that recommends unwatched movies to one person.

- `findClosestCritics` measures each critic's distance to the person. The distance is the sum of squared rating differences over the titles both have rated, with no normalisation. The function sorts the critics by distance and returns the first three names.
- `recommendMovies` restricts the critics' table to the chosen critics and averages each title's present ratings, rounded to two decimals. It then keeps the titles the person has not rated, inner-joins them with the movie catalog and groups them by primary genre (`Genre1`). From each genre it returns every movie whose average reaches that genre's maximum.

The tables are values:
- the critics' table is a `CriticTable`: critic columns in header order, and rows of title plus cells;
- the person's ratings are a `map` from title to an optional rating;
- the catalog is a `map` from title to `Movie(genre1, year, runtime)`.

A blank cell is `None`. The caller's list of chosen critics is a `CriticList` object, because `recommendMovies` changes it in place.

Files:
- `tables.dfy`: module `Tables`. It holds the data model, cell lookup with missing-as-blank, and code-point string order with its order lemmas.
- `closest_critics.dfy`: module `ClosestCritics`. It holds the distance, the sort, the selection with its properties, and the call as written, which raises on a blank cell.
- `recommend.dfy`: module `Recommend`. It holds the averaging, the unwatched filter, the catalog join, grouping, the per-genre maximum and selection, and the output properties. It also holds `RecommendMovies`: a method that updates the caller's list and builds the output in a loop over the genre groups.

Behaviour of the code at its edges, as the model captures it:
- With fewer than three critics, fewer names are returned. There is no error.
- `findClosestCritics` raises when any critic cell or person rating is blank. The integer casts at lines 15-16 raise, although their results are discarded (see Findings).
- The sort that decides the critic order is not stable. Nothing fixes the order of tied critics.
- An empty list of chosen critics is not an error. Every average is then missing, so nothing is selected.
- When no row reaches the grouping step with a primary genre, the output frame is still the empty frame with no columns. The (discarded) sort by `Genre1` at line 86 then raises. So the code raises instead of returning an empty table, and the model returns `Err(NoGenreGroups)`.
- A chosen list that already holds `Title` (as after a first call on the same list) selects the key column twice. The merge at line 53 then raises because the `Title` label is not unique. The model returns `Err(DuplicateTitle)`.
- The output's genre order comes from the group keys, which are sorted. The sort at line 86 is discarded.

## Model

| member | source | states |
|---|---|---|
| ClosestCritics.Term | Recommend.py:20-23 | one title contributes the squared difference when both ratings are present, else nothing (never negative) |
| ClosestCritics.Distance | Recommend.py:20-23 | a critic's distance is a sum over the critics' table rows and is never negative |
| ClosestCritics.DistanceAppend | Recommend.py:23 | the distance of two row blocks is the sum of their distances: it is a plain sum, not divided by how many titles count |
| ClosestCritics.BlankRowAddsNothing | Recommend.py:23 | a title where the critic's or the person's cell is blank leaves the distance unchanged (skipna) |
| ClosestCritics.SharedRowAddsSquare | Recommend.py:20-23 | a title both rated adds exactly (critic rating − person rating)² |
| ClosestCritics.DistanceZeroIff | Recommend.py:20-23 | distance 0 exactly when the critic agrees with the person on every co-rated title; so a critic sharing no title has distance 0 |
| ClosestCritics.PersonOnlyTitleIgnored | Recommend.py:20 | a title only in the person's table changes no distance |
| ClosestCritics.Distances | Recommend.py:23-24 | the distance row holds one entry per critic column, equal to that critic's distance |
| ClosestCritics.InsertBy | Recommend.py:25 | inserting into a list sorted by distance keeps it sorted and adds exactly that critic |
| ClosestCritics.SortBy | Recommend.py:25 | the sorted critics are a permutation of the critic columns, in non-decreasing distance |
| ClosestCritics.NearestCritics | Recommend.py:11-26 | with blank cells skipped, returns min(3, number of critics) names, each a critic column and never `Title`, without repeats |
| ClosestCritics.FindClosestCritics | Recommend.py:11-28 | raises exactly when some critic cell or some person rating is blank (the integer casts of lines 15-16); otherwise returns the nearest critics |
| ClosestCritics.BlankCriticCellRaises | Recommend.py:15-23 | one blank critic cell makes the call raise, although skipping it would select that critic |
| ClosestCritics.ClosestCriticsSorted | Recommend.py:25-26 | the nearest critics are in non-decreasing distance |
| ClosestCritics.ClosestCriticsNearest | Recommend.py:25-26 | no critic left out is strictly closer than any of the nearest critics |
| Recommend.Present | Recommend.py:47-50 | each rating is averaged exactly as often as chosen non-`Title` columns hold it (a critic listed twice counts twice), and only those values occur |
| Recommend.PresentAppend | Recommend.py:47-50 | the present ratings of two column lists side by side are those of each list in turn |
| Recommend.Mean | Recommend.py:50 | a mean exists exactly when some value is present |
| Recommend.Round2 | Recommend.py:50 | the rounded value is a whole number of hundredths within half a hundredth of the input |
| Recommend.Round2Between | Recommend.py:50 | rounding to hundredths keeps a value inside any interval with whole-number ends |
| Recommend.MeanBounds | Recommend.py:50 | the mean lies between any lower and upper bound of the averaged ratings |
| Recommend.Average | Recommend.py:47-50 | a title's average is missing exactly when no chosen critic rated it; otherwise it is within half a hundredth of the sum of the present ratings divided by their count |
| Recommend.AverageBounds | Recommend.py:47-50 | an average of ratings within [lo, hi], rounded, lies within [lo, hi] |
| Recommend.AverageSkipsTitle | Recommend.py:46-50 | the `Title` column put in front of the chosen critics does not change any average |
| Recommend.Averaged | Recommend.py:50 | the new `rating` column: one row per critics' row, same title and order, carrying that row's average |
| Recommend.Unwatched | Recommend.py:53-59 | a row is kept exactly when the person's joined rating is blank or the title is absent from the person's table |
| Recommend.JoinCatalog | Recommend.py:62 | inner join: each result row is a kept row whose title is in the catalog, carrying that catalog entry, and every such row is present |
| Recommend.Candidates | Recommend.py:46-62 | every row reaching the grouping is unwatched, in the catalog with its catalog entry, and carries its title's average; every unwatched critics' row whose title is in the catalog reaches the grouping |
| Recommend.InsertGenre | Recommend.py:70 | adding a group key keeps the key list strictly ascending and adds exactly that key |
| Recommend.Genres | Recommend.py:66-70 | the group keys are strictly ascending and are exactly the primary genres present; rows without one form no group |
| Recommend.GenreMax | Recommend.py:73 | the group maximum ignores missing averages, is attained by a row of the group and bounds every present average of the group; it is missing exactly when all are |
| Recommend.Pick | Recommend.py:80-82 | a group's selection is exactly its rows whose present average is at least the group maximum |
| Recommend.TopPerGenre | Recommend.py:76-84 | the appended selections hold exactly the rows selected in one of the listed groups |
| Recommend.SelectedAreMaximal | Recommend.py:73-84 | every selected row has a primary genre and a present average equal to its genre's maximum |
| Recommend.MaximalAreSelected | Recommend.py:73-84 | every row with a primary genre whose present average is at least every other average of its genre is selected |
| Recommend.AppendGroupOrdered | Recommend.py:84 | appending a group whose genre follows every genre so far keeps the output genre-ordered |
| Recommend.TopPerGenreOrdered | Recommend.py:70-86 | walking the ascending group keys yields records grouped by genre in ascending order |
| Recommend.ToRecord | Recommend.py:89-90 | an output record keeps title, primary genre, average, year and runtime, and loses nothing of the joined row; a missing value stays blank |
| Recommend.Project | Recommend.py:89-90 | the output holds one record per selected row, in the same order |
| Recommend.Recommend | Recommend.py:32-93 | with pandas 1.0 and later, the call raises a key error exactly when a chosen name is not a column (line 47); otherwise it raises exactly when `Title` was already chosen (line 53); otherwise exactly when no row has a primary genre (line 86) |
| Recommend.SecondCallRaises | Recommend.py:46-53 | calling again with the list a first call changed always raises: unknown columns, or else the duplicate `Title` key |
| Recommend.OutputUnwatched | Recommend.py:53-59 | no recommended title has a rating by the person |
| Recommend.OutputInCatalog | Recommend.py:62-70 | every recommended title is in the catalog, has a primary genre, and shows the catalog's genre, year and runtime |
| Recommend.OutputAverage | Recommend.py:46-50 | every recommended rating is present and equals the rounded mean of the chosen critics' present ratings of that title, never using the person's rating |
| Recommend.OutputMaximal | Recommend.py:73-84 | every recommended movie's average is its genre's maximum among unwatched catalog movies |
| Recommend.OutputComplete | Recommend.py:73-84 | every unwatched catalog movie whose average is its genre's maximum is recommended |
| Recommend.OutputGenreOrder | Recommend.py:70-86 | the records appear grouped by genre in ascending genre order, although the sort at line 86 is discarded |
| Recommend.RecommendMovies | Recommend.py:32-93 | puts `Title` at the front of the caller's list, also when the call then fails, and returns the result of `Recommend` (so a second call on the same list raises), built one genre group at a time |

## Findings

| source | as written | input that shows it | evidently intended | confidence | as-written member | corrected member |
|---|---|---|---|---|---|---|
| Recommend.py:15-23 | the integer casts at lines 15-16 discard their results but still raise on any blank cell, so the skipping of blanks at line 23 is never reached | critic `A` with a blank cell for title `M`, and the person rating `M` as 5 (`BlankCriticCellRaises`) | blanks are ignored in the distance, as the comment at line 22 and `skipna` at line 23 say, and the nearest critics are returned | medium, not executed | ClosestCritics.FindClosestCritics | ClosestCritics.NearestCritics |

## Left out

- `main`, which asks for file names, changes directory and reads the CSV files, is input and output only. `printRecommendations` only formats console output. The `print` call and the display option in `recommendMovies` are left out for the same reason.
- The results of the `astype('int64')` calls are discarded, so the casts only matter through the error they raise on a blank cell. `FindClosestCritics` models that error. Ratings are integers, and non-finite values other than blanks are not modelled.
- Floating point is not modelled. Means are exact reals, and `Round2` rounds half to even on the exact value. Python rounds the nearest binary float instead. For means of up to three integers the two agree, because no such mean is a tie at two decimals.
- ClosestCritics.NearestCritics: among critics at equal distance the model keeps header order. The source's sort is not stable and gives no tie order. The contracts therefore say nothing about ties.
- The `fillna(' ')` blank is modelled as `None` in the output record, not as a string.
- Titles are unique keys in the person's table and the catalog, which are maps. Duplicate titles in those files would make the pandas merges repeat rows, and that is not modelled.
- A title literally named `distance` clashes with the scratch row of line 24. That clash is not modelled.
- Critic column headers are distinct and none is `Title` (`CriticTable.Valid`), as a CSV header read by pandas gives them. Catalog columns other than `Genre1`, `Year` and `Runtime` are not modelled.
- The mean skips the non-numeric `Title` column, which is what pandas 1.0 to 1.5 does (these versions still provide `DataFrame.append`). Non-numeric critic cells are not modelled.
- Column-name clashes across the merges are not modelled. In each case below the model returns `Ok` where the code raises or differs:
  - A chosen critic named `Genre1` gets a `_x` suffix from the merge at line 62, and line 66 then raises a key error.
  - A chosen critic named `Year` or `Runtime` is suffixed the same way, and line 89 then raises.
  - A catalog column named `rating` makes the merge at line 62 suffix both `rating` columns, and line 73 then raises.
- Recommend.Recommend: the key error for a chosen name that is not a column follows pandas 1.0 and later. Before pandas 1.0, `.loc` at line 47 reads an unknown name as a blank column and only warns. The mean then skips that column, and the call goes on. The model does not capture that older behaviour.

=== FILE: closest_critics.dfy ===
/**
 * `findClosestCritics` (Recommend.py:3-28): each critic's distance to the person is the
 * unnormalised sum of squared rating differences over the titles both
 * rated; the critics are sorted by that distance and the first three kept.
 */
module ClosestCritics {
  import opened Tables

  /** How many critics are selected. */
  const K: nat := 3

  /** The contribution of one row: the squared difference when both cells are present, else nothing. */
  function Term(row: CriticRow, person: PersonRatings, c: Column): (d: int)
    ensures d >= 0
    ensures d > 0 ==> Cell(row, c).Some? && PersonCell(person, row.title).Some?
  {
    match (Cell(row, c), PersonCell(person, row.title))
    case (Some(x), Some(y)) => (x - y) * (x - y)
    case _ => 0
  }

  /** The distance of critic `c` to the person over the rows of the critics' table. */
  function Distance(rows: seq<CriticRow>, person: PersonRatings, c: Column): (d: int)
    ensures d >= 0
  {
    if rows == [] then 0 else Term(rows[0], person, c) + Distance(rows[1..], person, c)
  }

  /** Both the critic and the person rated the row's title, and they agree. */
  predicate Agrees(row: CriticRow, person: PersonRatings, c: Column) {
    Cell(row, c).Some? && PersonCell(person, row.title).Some? ==>
      Cell(row, c).value == PersonCell(person, row.title).value
  }

  /** The sum is over rows and is not divided by how many rows count. */
  lemma {:induction false} DistanceAppend(a: seq<CriticRow>, b: seq<CriticRow>, person: PersonRatings, c: Column)
    ensures Distance(a + b, person, c) == Distance(a, person, c) + Distance(b, person, c)
  {
    if a == [] {
      assert a + b == b;
    } else {
      assert (a + b)[1..] == a[1..] + b;
      DistanceAppend(a[1..], b, person, c);
    }
  }

  /** A row where either cell is blank leaves the distance unchanged. */
  lemma BlankRowAddsNothing(rows: seq<CriticRow>, row: CriticRow, person: PersonRatings, c: Column)
    requires Cell(row, c).None? || PersonCell(person, row.title).None?
    ensures Distance(rows + [row], person, c) == Distance(rows, person, c)
  {
    DistanceAppend(rows, [row], person, c);
  }

  /** A row where both are present adds exactly the squared difference. */
  lemma SharedRowAddsSquare(rows: seq<CriticRow>, row: CriticRow, person: PersonRatings, c: Column, x: int, y: int)
    requires Cell(row, c) == Some(x) && PersonCell(person, row.title) == Some(y)
    ensures Distance(rows + [row], person, c) == Distance(rows, person, c) + (x - y) * (x - y)
  {
    DistanceAppend(rows, [row], person, c);
  }

  /** Distance zero exactly when the critic agrees with the person on every co-rated title
      (in particular when they have no title in common). */
  lemma {:induction false} DistanceZeroIff(rows: seq<CriticRow>, person: PersonRatings, c: Column)
    ensures Distance(rows, person, c) == 0 <==> forall i :: 0 <= i < |rows| ==> Agrees(rows[i], person, c)
  {
    if rows != [] {
      DistanceZeroIff(rows[1..], person, c);
      assert forall i :: 1 <= i < |rows| ==> rows[i] == rows[1..][i - 1];
      var x, y := Cell(rows[0], c), PersonCell(person, rows[0].title);
      if x.Some? && y.Some? && x.value != y.value {
        assert (x.value - y.value) * (x.value - y.value) > 0;
      }
    }
  }

  /** A title the critics' table does not carry: rating it in the person's table changes no distance. */
  lemma {:induction false} PersonOnlyTitleIgnored(rows: seq<CriticRow>, person: PersonRatings, c: Column, t: Title, v: Option<int>)
    requires forall i :: 0 <= i < |rows| ==> rows[i].title != t
    ensures Distance(rows, person[t := v], c) == Distance(rows, person, c)
  {
    if rows != [] {
      PersonOnlyTitleIgnored(rows[1..], person, c, t, v);
    }
  }

  /** Each critic's distance, keyed by critic name. */
  function Distances(table: CriticTable, person: PersonRatings): (dist: map<Column, int>)
    ensures forall c :: c in dist <==> c in table.critics
    ensures forall c :: c in dist ==> dist[c] == Distance(table.rows, person, c)
  {
    map c | c in table.critics :: Distance(table.rows, person, c)
  }

  /** Every critic of `s` has a distance in `dist`. */
  predicate Keyed(s: seq<Column>, dist: map<Column, int>) {
    forall i :: 0 <= i < |s| ==> s[i] in dist
  }

  /** `s` is ordered by non-decreasing distance. */
  predicate SortedBy(s: seq<Column>, dist: map<Column, int>)
    requires Keyed(s, dist)
  {
    forall i, j :: 0 <= i < j < |s| ==> dist[s[i]] <= dist[s[j]]
  }

  /** The head of a sorted list is no farther than anything inserted after it. */
  lemma HeadStaysFirst(c: Column, s: seq<Column>, tail: seq<Column>, dist: map<Column, int>)
    requires s != [] && c in dist && Keyed(s, dist) && SortedBy(s, dist) && Keyed(tail, dist)
    requires dist[s[0]] < dist[c]
    requires multiset(tail) == multiset(s[1..]) + multiset{c}
    ensures forall i :: 0 <= i < |tail| ==> dist[s[0]] <= dist[tail[i]]
  {
    forall i | 0 <= i < |tail| ensures dist[s[0]] <= dist[tail[i]] {
      var x := tail[i];
      assert x in multiset(tail);
      if x != c {
        assert x in multiset(s[1..]);
        var m :| 0 <= m < |s| - 1 && s[1..][m] == x;
        assert s[m + 1] == x;
      }
    }
  }

  /** Inserts `c` before the first critic that is at least as far. */
  function InsertBy(c: Column, s: seq<Column>, dist: map<Column, int>): (r: seq<Column>)
    requires c in dist && Keyed(s, dist) && SortedBy(s, dist)
    ensures Keyed(r, dist) && SortedBy(r, dist)
    ensures multiset(r) == multiset(s) + multiset{c}
  {
    if s == [] || dist[c] <= dist[s[0]] then [c] + s
    else
      var tail := InsertBy(c, s[1..], dist);
      assert s == [s[0]] + s[1..];
      HeadStaysFirst(c, s, tail, dist);
      [s[0]] + tail
  }

  /** Sorts critics by distance (an insertion sort; ties keep header order). */
  function SortBy(cs: seq<Column>, dist: map<Column, int>): (r: seq<Column>)
    requires Keyed(cs, dist)
    ensures Keyed(r, dist) && SortedBy(r, dist)
    ensures multiset(r) == multiset(cs)
  {
    if cs == [] then []
    else
      assert cs == [cs[0]] + cs[1..];
      InsertBy(cs[0], SortBy(cs[1..], dist), dist)
  }

  /** A sequence without repeats holds each element once. */
  lemma {:induction false} DistinctCounts(s: seq<Column>)
    requires Distinct(s)
    ensures forall x :: multiset(s)[x] <= 1
  {
    if s != [] {
      assert Distinct(s[1..]) by {
        forall i, j | 0 <= i < j < |s| - 1 ensures s[1..][i] != s[1..][j] {
          assert s[1..][i] == s[i + 1] && s[1..][j] == s[j + 1];
        }
      }
      DistinctCounts(s[1..]);
      assert s == [s[0]] + s[1..];
      assert s[0] !in s[1..] by {
        forall m | 0 <= m < |s| - 1 ensures s[1..][m] != s[0] {
          assert s[1..][m] == s[m + 1];
        }
      }
    }
  }

  /** A sequence that holds each element at most once has no repeats. */
  lemma CountsDistinct(s: seq<Column>)
    requires forall x :: multiset(s)[x] <= 1
    ensures Distinct(s)
  {
    forall i, j | 0 <= i < j < |s| ensures s[i] != s[j] {
      assert s == s[..j] + s[j..];
      assert s[i] in s[..j] by { assert s[..j][i] == s[i]; }
      assert s[j] in s[j..] by { assert s[j..][0] == s[j]; }
      assert multiset(s)[s[j]] == multiset(s[..j])[s[j]] + multiset(s[j..])[s[j]];
    }
  }

  /** A permutation of a sequence without repeats has none. */
  lemma PermutationDistinct(a: seq<Column>, b: seq<Column>)
    requires multiset(a) == multiset(b) && Distinct(b)
    ensures Distinct(a)
  {
    DistinctCounts(b);
    CountsDistinct(a);
  }

  /** The first `n` critics of a sorted permutation of `cs` are no farther than any critic left out. */
  lemma PrefixIsClosest(cs: seq<Column>, sorted: seq<Column>, dist: map<Column, int>, n: nat)
    requires Keyed(cs, dist) && Keyed(sorted, dist) && SortedBy(sorted, dist)
    requires multiset(sorted) == multiset(cs) && n <= |sorted|
    ensures forall i :: 0 <= i < n ==> sorted[i] in cs
    ensures forall c, i :: c in cs && c !in sorted[..n] && 0 <= i < n ==> dist[sorted[i]] <= dist[c]
  {
    forall i | 0 <= i < n ensures sorted[i] in cs {
      assert sorted[i] in multiset(sorted);
    }
    forall c, i | c in cs && c !in sorted[..n] && 0 <= i < n
      ensures dist[sorted[i]] <= dist[c]
    {
      assert c in multiset(sorted);
      var j :| 0 <= j < |sorted| && sorted[j] == c;
      assert forall m :: 0 <= m < n ==> sorted[m] in sorted[..n] by {
        forall m | 0 <= m < n ensures sorted[m] in sorted[..n] {
          assert sorted[..n][m] == sorted[m];
        }
      }
      assert j >= n;
    }
  }

  /** A prefix of a sequence without repeats has none. */
  lemma DistinctPrefix(s: seq<Column>, n: nat)
    requires Distinct(s) && n <= |s|
    ensures Distinct(s[..n])
  {
  }

  /** The names of the (at most) three critics closest to the person, closest first,
      blank cells skipped as the sum at Recommend.py:23 intends. */
  function NearestCritics(table: CriticTable, person: PersonRatings): (r: seq<Column>)
    requires table.Valid()
    ensures |r| == if |table.critics| < K then |table.critics| else K
    ensures forall i :: 0 <= i < |r| ==> r[i] in table.critics && r[i] != TitleColumn
    ensures Distinct(r)
  {
    var sorted := SortBy(table.critics, Distances(table, person));
    assert |sorted| == |table.critics| by {
      assert |multiset(sorted)| == |multiset(table.critics)|;
    }
    var n := if |sorted| < K then |sorted| else K;
    PermutationDistinct(sorted, table.critics);
    DistinctPrefix(sorted, n);
    assert forall i :: 0 <= i < n ==> sorted[..n][i] in table.critics by {
      forall i | 0 <= i < n ensures sorted[..n][i] in table.critics {
        assert sorted[i] in multiset(sorted);
      }
    }
    sorted[..n]
  }

  /** The selected critics come closest first. */
  lemma ClosestCriticsSorted(table: CriticTable, person: PersonRatings)
    requires table.Valid()
    ensures var r := NearestCritics(table, person);
      forall i, j :: 0 <= i < j < |r| ==> Distance(table.rows, person, r[i]) <= Distance(table.rows, person, r[j])
  {
  }

  /** No critic left out is strictly closer than a selected one. */
  lemma ClosestCriticsNearest(table: CriticTable, person: PersonRatings)
    requires table.Valid()
    ensures var r := NearestCritics(table, person);
      forall c, i :: c in table.critics && c !in r && 0 <= i < |r| ==>
        Distance(table.rows, person, r[i]) <= Distance(table.rows, person, c)
  {
    var dist := Distances(table, person);
    var sorted := SortBy(table.critics, dist);
    var n := |NearestCritics(table, person)|;
    PrefixIsClosest(table.critics, sorted, dist, n);
  }

  // ---------------------------------------------------------------------
  // The integer casts of Recommend.py:15-16

  /** Why the call raises: a blank cell cannot be cast to an integer. */
  datatype CastError = BlankRating

  /** Some cell the casts see is blank: a critic cell of the critics' table, or a person rating. */
  predicate HasBlank(table: CriticTable, person: PersonRatings) {
    (exists k, c :: 0 <= k < |table.rows| && c in table.critics && Cell(table.rows[k], c).None?) ||
    (exists t :: t in person && person[t].None?)
  }

  /** `findClosestCritics` as written: the discarded integer casts still raise on any blank
      cell of either table, before the distances are computed. */
  function FindClosestCritics(table: CriticTable, person: PersonRatings): (r: Result<seq<Column>, CastError>)
    requires table.Valid()
    ensures r.Err? <==>
              (exists k, c :: 0 <= k < |table.rows| && c in table.critics && Cell(table.rows[k], c).None?) ||
              (exists t :: t in person && person[t].None?)
    ensures r.Ok? ==> r.value == NearestCritics(table, person)
  {
    if HasBlank(table, person) then Err(BlankRating) else Ok(NearestCritics(table, person))
  }

  /** One critic who left a title blank: the code raises, where skipping the blank picks that critic. */
  lemma BlankCriticCellRaises()
    ensures var table := CriticTable(["A"], [CriticRow("M", map["A" := None])]);
      var person := map["M" := Some(5)];
      FindClosestCritics(table, person) == Err(BlankRating) && NearestCritics(table, person) == ["A"]
  {
    var table := CriticTable(["A"], [CriticRow("M", map["A" := None])]);
    var person := map["M" := Some(5)];
    assert Cell(table.rows[0], "A").None?;
    assert "A" in table.critics;
  }
}

=== FILE: recommend.dfy ===
/**
 * `recommendMovies` (Recommend.py:32-93): restrict the critics' table to the chosen critics and
 * average each title's present ratings; keep the titles the person has not
 * rated; join with the catalog; group by primary genre (ascending, rows
 * without a genre dropped); and from each group take every movie whose
 * average reaches the group's maximum.
 */
module Recommend {
  import opened Tables

  /** Why the call raises instead of returning a table. */
  datatype Error =
    | UnknownColumns  // a chosen name is not a column of the critics' table
    | DuplicateTitle  // `Title` was already chosen, so the merge key column is not unique
    | NoGenreGroups   // nothing was grouped, so the empty result has no `Genre1` column to sort by

  /** A critics' row once the average column is added. */
  datatype RatedRow = RatedRow(title: Title, rating: Option<real>)

  /** A row of the catalog join: average and catalog columns side by side. */
  datatype Candidate = Candidate(title: Title, rating: Option<real>, movie: Movie)

  /** One output record; `None` is the blank that missing values are shown as. */
  datatype Recommendation =
    Recommendation(title: Title, genre1: Option<string>, rating: Option<real>, year: Option<int>, runtime: Option<int>)

  // ---------------------------------------------------------------------
  // The average rating (Recommend.py:46-50)

  function Sum(xs: seq<int>): int {
    if xs == [] then 0 else xs[0] + Sum(xs[1..])
  }

  /** The column positions holding a present rating `x`; the non-numeric `Title` column holds none. */
  ghost function Hits(row: CriticRow, cols: seq<Column>, x: int): set<int> {
    set i | 0 <= i < |cols| && cols[i] != TitleColumn && Cell(row, cols[i]) == Some(x)
  }

  /** The present ratings of the listed columns of a row, in column order: each rating
      occurs once per column holding it, so a critic listed twice counts twice. */
  function Present(row: CriticRow, cols: seq<Column>): (xs: seq<int>)
    ensures |xs| <= |cols|
    ensures forall x :: multiset(xs)[x] == |Hits(row, cols, x)|
    ensures forall x :: x in xs <==> exists c :: c in cols && c != TitleColumn && Cell(row, c) == Some(x)
  {
    if cols == [] then []
    else
      var n := |cols| - 1;
      var init := cols[..n];
      var last := cols[n];
      var here := if last != TitleColumn && Cell(row, last).Some? then [Cell(row, last).value] else [];
      var rest := Present(row, init);
      assert forall c :: c in cols <==> c == last || c in init by {
        assert cols == init + [last];
      }
      HitsSnoc(row, cols, Present(row, init), here);
      rest + here
  }

  /** How the positions of a rating grow by one column at the end. */
  lemma HitsSnoc(row: CriticRow, cols: seq<Column>, rest: seq<int>, here: seq<int>)
    requires cols != []
    requires forall x :: multiset(rest)[x] == |Hits(row, cols[..|cols| - 1], x)|
    requires var last := cols[|cols| - 1];
      here == if last != TitleColumn && Cell(row, last).Some? then [Cell(row, last).value] else []
    ensures forall x :: multiset(rest + here)[x] == |Hits(row, cols, x)|
  {
    var n := |cols| - 1;
    forall x ensures multiset(rest + here)[x] == |Hits(row, cols, x)| {
      var a := Hits(row, cols[..n], x);
      assert a == set i | 0 <= i < n && cols[i] != TitleColumn && Cell(row, cols[i]) == Some(x);
      if cols[n] != TitleColumn && Cell(row, cols[n]) == Some(x) {
        assert Hits(row, cols, x) == a + {n};
        assert n !in a;
      } else {
        assert Hits(row, cols, x) == a;
      }
    }
  }

  /** The present ratings of two column lists side by side are those of each, in turn. */
  lemma {:induction false} PresentAppend(row: CriticRow, a: seq<Column>, b: seq<Column>)
    ensures Present(row, a + b) == Present(row, a) + Present(row, b)
  {
    if b == [] {
      assert a + b == a;
    } else {
      var n := |b| - 1;
      assert (a + b)[..|a + b| - 1] == a + b[..n];
      PresentAppend(row, a, b[..n]);
    }
  }

  /** The arithmetic mean; there is none of zero values. */
  function Mean(xs: seq<int>): (m: Option<real>)
    ensures m.None? <==> xs == []
  {
    if xs == [] then None else Some(Sum(xs) as real / |xs| as real)
  }

  /** Rounds to two decimals, ties to even, on exact values. */
  function Round2(x: real): (y: real)
    ensures -1.0 / 200.0 <= y - x <= 1.0 / 200.0
    ensures (y * 100.0).Floor as real == y * 100.0
  {
    var s := x * 100.0;
    var n := s.Floor;
    var f := s - n as real;
    var k := if f < 0.5 then n else if f > 0.5 then n + 1 else if n % 2 == 0 then n else n + 1;
    var y := k as real / 100.0;
    assert -0.5 <= k as real - s <= 0.5;
    assert y - x == (k as real - s) / 100.0;
    assert y * 100.0 == k as real;
    y
  }

  /** Rounding to hundredths never leaves an interval with whole-number ends. */
  lemma Round2Between(x: real, lo: int, hi: int)
    requires lo as real <= x <= hi as real
    ensures lo as real <= Round2(x) <= hi as real
  {
    var s := x * 100.0;
    var n := s.Floor;
    assert lo * 100 <= n by {
      assert (lo * 100) as real <= s;
    }
    assert n <= hi * 100 by {
      assert n as real <= s <= (hi * 100) as real;
    }
    if s - n as real >= 0.5 {
      assert n < hi * 100 by {
        assert n as real < s <= (hi * 100) as real;
      }
    }
  }

  /** A row's average over the listed columns, rounded; `None` when none of them rated it. */
  function Average(row: CriticRow, cols: seq<Column>): (r: Option<real>)
    ensures r.None? <==> forall c :: c in cols && c != TitleColumn ==> Cell(row, c).None?
    ensures r.Some? ==>
              var xs := Present(row, cols);
              xs != [] && -1.0 / 200.0 <= r.value - Sum(xs) as real / |xs| as real <= 1.0 / 200.0
  {
    var xs := Present(row, cols);
    assert xs != [] ==> xs[0] in xs;
    match Mean(xs)
    case None => None
    case Some(m) => Some(Round2(m))
  }

  lemma {:induction false} SumBounds(xs: seq<int>, lo: int, hi: int)
    requires forall i :: 0 <= i < |xs| ==> lo <= xs[i] <= hi
    ensures lo * |xs| <= Sum(xs) <= hi * |xs|
  {
    if xs != [] {
      SumBounds(xs[1..], lo, hi);
      assert lo * |xs| == lo + lo * (|xs| - 1);
      assert hi * |xs| == hi + hi * (|xs| - 1);
    }
  }

  /** The mean lies between any bounds of the values. */
  lemma MeanBounds(xs: seq<int>, lo: int, hi: int)
    requires xs != []
    requires forall i :: 0 <= i < |xs| ==> lo <= xs[i] <= hi
    ensures Mean(xs).Some? && lo as real <= Mean(xs).value <= hi as real
  {
    SumBounds(xs, lo, hi);
    var n, s := |xs| as real, Sum(xs) as real;
    assert lo as real * n <= s <= hi as real * n;
    assert s / n - lo as real == (s - lo as real * n) / n;
    assert hi as real - s / n == (hi as real * n - s) / n;
  }

  /** The average of ratings within [lo, hi] is within [lo, hi]. */
  lemma AverageBounds(row: CriticRow, cols: seq<Column>, lo: int, hi: int)
    requires forall c :: c in cols && Cell(row, c).Some? ==> lo <= Cell(row, c).value <= hi
    ensures Average(row, cols).Some? ==> lo as real <= Average(row, cols).value <= hi as real
  {
    var xs := Present(row, cols);
    if xs != [] {
      assert forall i :: 0 <= i < |xs| ==> lo <= xs[i] <= hi by {
        forall i | 0 <= i < |xs| ensures lo <= xs[i] <= hi {
          assert xs[i] in xs;
        }
      }
      MeanBounds(xs, lo, hi);
      Round2Between(Mean(xs).value, lo, hi);
    }
  }

  /** The `Title` column put in front of the chosen critics adds nothing to the average. */
  lemma AverageSkipsTitle(row: CriticRow, chosen: seq<Column>)
    ensures Average(row, [TitleColumn] + chosen) == Average(row, chosen)
  {
    PresentAppend(row, [TitleColumn], chosen);
    assert Present(row, [TitleColumn]) == [] by {
      assert [TitleColumn][..0] == [];
    }
    assert Present(row, [TitleColumn] + chosen) == Present(row, chosen);
  }

  // ---------------------------------------------------------------------
  // Unwatched titles and the catalog join (Recommend.py:53-62)

  /** The average column, added to every row of the critics' table. */
  function Averaged(rows: seq<CriticRow>, cols: seq<Column>): (r: seq<RatedRow>)
    ensures |r| == |rows|
    ensures forall i :: 0 <= i < |rows| ==> r[i] == RatedRow(rows[i].title, Average(rows[i], cols))
  {
    seq(|rows|, i requires 0 <= i < |rows| => RatedRow(rows[i].title, Average(rows[i], cols)))
  }

  /** Left join with the person's ratings, keeping the rows whose joined person cell is blank. */
  function Unwatched(rated: seq<RatedRow>, person: PersonRatings): (r: seq<RatedRow>)
    ensures forall x :: x in r <==> x in rated && PersonCell(person, x.title).None?
  {
    if rated == [] then []
    else
      var rest := Unwatched(rated[1..], person);
      assert forall x :: x in rated <==> x == rated[0] || x in rated[1..] by {
        assert rated == [rated[0]] + rated[1..];
      }
      if PersonCell(person, rated[0].title).None? then [rated[0]] + rest else rest
  }

  /** Inner join with the catalog on the title. */
  function JoinCatalog(rated: seq<RatedRow>, catalog: Catalog): (r: seq<Candidate>)
    ensures forall x :: x in r ==>
              x.title in catalog && x.movie == catalog[x.title] && RatedRow(x.title, x.rating) in rated
    ensures forall y :: y in rated && y.title in catalog ==> Candidate(y.title, y.rating, catalog[y.title]) in r
  {
    if rated == [] then []
    else
      var y := rated[0];
      var rest := JoinCatalog(rated[1..], catalog);
      assert forall x :: x in rated <==> x == y || x in rated[1..] by {
        assert rated == [y] + rated[1..];
      }
      if y.title in catalog then [Candidate(y.title, y.rating, catalog[y.title])] + rest else rest
  }

  /** The rows that reach the grouping step, for the column list after Recommend.py:46: every one is an
      unwatched row of the critics' table with its average and its catalog entry, and every
      unwatched row whose title is in the catalog is one. */
  function Candidates(table: CriticTable, person: PersonRatings, cols: seq<Column>, catalog: Catalog)
    : (r: seq<Candidate>)
    ensures forall x :: x in r ==>
              PersonCell(person, x.title).None? && x.title in catalog && x.movie == catalog[x.title] &&
              exists k :: 0 <= k < |table.rows| && table.rows[k].title == x.title && Average(table.rows[k], cols) == x.rating
    ensures forall k :: 0 <= k < |table.rows| && PersonCell(person, table.rows[k].title).None? && table.rows[k].title in catalog ==>
              Candidate(table.rows[k].title, Average(table.rows[k], cols), catalog[table.rows[k].title]) in r
  {
    var rated := Averaged(table.rows, cols);
    assert forall k :: 0 <= k < |table.rows| ==> rated[k] in rated;
    JoinCatalog(Unwatched(rated, person), catalog)
  }

  // ---------------------------------------------------------------------
  // Grouping by primary genre and the per-genre maximum (Recommend.py:66-84)

  predicate InGenre(x: Candidate, g: string) {
    x.movie.genre1 == Some(g)
  }

  predicate StrictlyAscending(gs: seq<string>) {
    forall i, j :: 0 <= i < j < |gs| ==> StrLt(gs[i], gs[j])
  }

  /** Adds a group key to an ascending key list, once. */
  function InsertGenre(g: string, gs: seq<string>): (r: seq<string>)
    requires StrictlyAscending(gs)
    ensures StrictlyAscending(r)
    ensures forall x :: x in r <==> x == g || x in gs
  {
    if gs == [] then [g]
    else if g == gs[0] then gs
    else if StrLe(g, gs[0]) then
      forall j | 0 < j < |gs| ensures StrLt(g, gs[j]) {
        StrLtTrans(g, gs[0], gs[j]);
      }
      [g] + gs
    else
      StrNotLe(g, gs[0]);
      var rest := InsertGenre(g, gs[1..]);
      assert forall x :: x in gs <==> x == gs[0] || x in gs[1..] by {
        assert gs == [gs[0]] + gs[1..];
      }
      forall j | 0 <= j < |rest| ensures StrLt(gs[0], rest[j]) {
        assert rest[j] in rest;
        if rest[j] != g {
          var m :| 0 <= m < |gs| - 1 && gs[1..][m] == rest[j];
          assert gs[m + 1] == rest[j];
        }
      }
      [gs[0]] + rest
  }

  /** The group keys: the distinct primary genres present, ascending; rows without one form no group. */
  function Genres(cands: seq<Candidate>): (gs: seq<string>)
    ensures StrictlyAscending(gs)
    ensures forall g :: g in gs <==> exists x :: x in cands && InGenre(x, g)
  {
    if cands == [] then []
    else
      var rest := Genres(cands[1..]);
      assert forall x :: x in cands <==> x == cands[0] || x in cands[1..] by {
        assert cands == [cands[0]] + cands[1..];
      }
      match cands[0].movie.genre1
      case None => rest
      case Some(g) =>
        assert cands[0] in cands && InGenre(cands[0], g);
        InsertGenre(g, rest)
  }

  /** The group's maximum average, ignoring missing ones; `None` when all are missing. */
  function GenreMax(cands: seq<Candidate>, g: string): (m: Option<real>)
    ensures m.None? <==> forall x :: x in cands && InGenre(x, g) ==> x.rating.None?
    ensures m.Some? ==> exists x :: x in cands && InGenre(x, g) && x.rating == m
    ensures m.Some? ==> forall x :: x in cands && InGenre(x, g) && x.rating.Some? ==> x.rating.value <= m.value
  {
    if cands == [] then None
    else
      var x := cands[0];
      var rest := GenreMax(cands[1..], g);
      assert forall y :: y in cands <==> y == x || y in cands[1..] by {
        assert cands == [x] + cands[1..];
      }
      if !InGenre(x, g) || x.rating.None? then rest
      else match rest
        case None => x.rating
        case Some(r) => if x.rating.value >= r then x.rating else rest
  }

  /** A row of genre `g` whose average is at least the group maximum `m`. */
  predicate Selected(x: Candidate, g: string, m: Option<real>) {
    InGenre(x, g) && x.rating.Some? && m.Some? && x.rating.value >= m.value
  }

  /** The rows of one group that reach its maximum, in row order. */
  function Pick(cands: seq<Candidate>, g: string, m: Option<real>): (r: seq<Candidate>)
    ensures forall x :: x in r <==> x in cands && Selected(x, g, m)
  {
    if cands == [] then []
    else
      var rest := Pick(cands[1..], g, m);
      assert forall x :: x in cands <==> x == cands[0] || x in cands[1..] by {
        assert cands == [cands[0]] + cands[1..];
      }
      if Selected(cands[0], g, m) then [cands[0]] + rest else rest
  }

  /** The selections of the listed groups, appended in key order. */
  function TopPerGenre(cands: seq<Candidate>, gs: seq<string>): (r: seq<Candidate>)
    ensures forall x :: x in r <==> x in cands && exists g :: g in gs && Selected(x, g, GenreMax(cands, g))
  {
    if gs == [] then []
    else
      var init, last := gs[..|gs| - 1], gs[|gs| - 1];
      var r := TopPerGenre(cands, init) + Pick(cands, last, GenreMax(cands, last));
      assert forall g :: g in gs <==> g == last || g in init by {
        assert gs == init + [last];
      }
      r
  }

  /** Every selected row has a genre and its genre's maximum average. */
  lemma SelectedAreMaximal(cands: seq<Candidate>)
    ensures var sel := TopPerGenre(cands, Genres(cands));
      forall i :: 0 <= i < |sel| ==>
        sel[i].movie.genre1.Some? && sel[i].rating.Some? && sel[i].rating == GenreMax(cands, sel[i].movie.genre1.value)
  {
    var sel := TopPerGenre(cands, Genres(cands));
    forall i | 0 <= i < |sel|
      ensures sel[i].movie.genre1.Some? && sel[i].rating.Some? && sel[i].rating == GenreMax(cands, sel[i].movie.genre1.value)
    {
      assert sel[i] in sel;
      var g :| g in Genres(cands) && Selected(sel[i], g, GenreMax(cands, g));
    }
  }

  /** Every row with a genre whose average is that genre's maximum is selected. */
  lemma MaximalAreSelected(cands: seq<Candidate>, x: Candidate)
    requires x in cands && x.movie.genre1.Some? && x.rating.Some?
    requires forall y :: y in cands && y.movie.genre1 == x.movie.genre1 && y.rating.Some? ==> y.rating.value <= x.rating.value
    ensures x in TopPerGenre(cands, Genres(cands))
  {
    var g := x.movie.genre1.value;
    assert InGenre(x, g);
    assert Selected(x, g, GenreMax(cands, g));
  }

  /** The records are grouped by genre, in ascending genre order. */
  predicate GenreOrdered(sel: seq<Candidate>) {
    (forall i :: 0 <= i < |sel| ==> sel[i].movie.genre1.Some?) &&
    forall i, j :: 0 <= i < j < |sel| ==> StrLe(sel[i].movie.genre1.value, sel[j].movie.genre1.value)
  }

  /** Appending a group whose genre follows every genre so far keeps the order. */
  lemma AppendGroupOrdered(a: seq<Candidate>, b: seq<Candidate>, last: string)
    requires GenreOrdered(a)
    requires forall i :: 0 <= i < |a| ==> StrLt(a[i].movie.genre1.value, last)
    requires forall i :: 0 <= i < |b| ==> InGenre(b[i], last)
    ensures GenreOrdered(a + b)
  {
    var r := a + b;
    StrLeRefl(last);
    forall i, j | 0 <= i < j < |r|
      ensures StrLe(r[i].movie.genre1.value, r[j].movie.genre1.value)
    {
      if j < |a| {
        assert r[i] == a[i] && r[j] == a[j];
      } else if i < |a| {
        assert r[i] == a[i] && r[j] == b[j - |a|];
      } else {
        assert r[i] == b[i - |a|] && r[j] == b[j - |a|];
      }
    }
  }

  lemma {:induction false} TopPerGenreOrdered(cands: seq<Candidate>, gs: seq<string>)
    requires StrictlyAscending(gs)
    ensures GenreOrdered(TopPerGenre(cands, gs))
  {
    if gs != [] {
      var init, last := gs[..|gs| - 1], gs[|gs| - 1];
      var a, b := TopPerGenre(cands, init), Pick(cands, last, GenreMax(cands, last));
      TopPerGenreOrdered(cands, init);
      forall i | 0 <= i < |b| ensures InGenre(b[i], last) {
        assert b[i] in b;
      }
      forall i | 0 <= i < |a| ensures StrLt(a[i].movie.genre1.value, last) {
        assert a[i] in a;
        var g :| g in init && Selected(a[i], g, GenreMax(cands, g));
        var m :| 0 <= m < |init| && init[m] == g;
        assert gs[m] == g;
      }
      AppendGroupOrdered(a, b, last);
    }
  }

  // ---------------------------------------------------------------------
  // The whole call

  /** The output columns of one row: title, primary genre, average, year and runtime,
      with nothing of the joined row lost. */
  function ToRecord(x: Candidate): (r: Recommendation)
    ensures Candidate(r.title, r.rating, Movie(r.genre1, r.year, r.runtime)) == x
  {
    Recommendation(x.title, x.movie.genre1, x.rating, x.movie.year, x.movie.runtime)
  }

  /** The output frame: one record per selected row, in the same order. */
  function Project(sel: seq<Candidate>): (r: seq<Recommendation>)
    ensures |r| == |sel|
    ensures forall i :: 0 <= i < |sel| ==> r[i] == ToRecord(sel[i])
  {
    seq(|sel|, i requires 0 <= i < |sel| => ToRecord(sel[i]))
  }

  predicate KnownColumn(table: CriticTable, c: Column) {
    c == TitleColumn || c in table.critics
  }

  /** `recommendMovies` as a value: `chosen` is the caller's list before Recommend.py:46 puts `Title` in front. */
  function Recommend(table: CriticTable, person: PersonRatings, chosen: seq<Column>, catalog: Catalog)
    : (r: Result<seq<Recommendation>, Error>)
    ensures r == Err(UnknownColumns) <==> exists c :: c in chosen && !KnownColumn(table, c)
    ensures r == Err(DuplicateTitle) <==>
              (forall c :: c in chosen ==> KnownColumn(table, c)) && TitleColumn in chosen
    ensures r == Err(NoGenreGroups) <==>
              (forall c :: c in chosen ==> KnownColumn(table, c)) && TitleColumn !in chosen &&
              forall x :: x in Candidates(table, person, [TitleColumn] + chosen, catalog) ==> x.movie.genre1.None?
  {
    var cols := [TitleColumn] + chosen;
    assert forall c :: c in cols <==> c == TitleColumn || c in chosen;
    if exists c :: c in cols && !KnownColumn(table, c) then Err(UnknownColumns)
    else if TitleColumn in chosen then Err(DuplicateTitle)
    else
      var cands := Candidates(table, person, cols, catalog);
      var gs := Genres(cands);
      assert forall x :: x in cands && x.movie.genre1.Some? ==> x.movie.genre1.value in gs;
      if gs == [] then Err(NoGenreGroups)
      else
        assert exists x :: x in cands && x.movie.genre1.Some? by {
          assert gs[0] in gs;
        }
        Ok(Project(TopPerGenre(cands, gs)))
  }

  /** A second call on the list the first call changed always raises: `Title` is then chosen twice. */
  lemma SecondCallRaises(table: CriticTable, person: PersonRatings, chosen: seq<Column>, catalog: Catalog)
    ensures var r := Recommend(table, person, [TitleColumn] + chosen, catalog);
      r.Err? && (r.error == DuplicateTitle <==> forall c :: c in chosen ==> KnownColumn(table, c))
  {
    assert TitleColumn in [TitleColumn] + chosen;
  }

  /** On success the output is the projection of the per-genre selection. */
  lemma OkIsSelection(table: CriticTable, person: PersonRatings, chosen: seq<Column>, catalog: Catalog)
    requires Recommend(table, person, chosen, catalog).Ok?
    ensures var cands := Candidates(table, person, [TitleColumn] + chosen, catalog);
      Recommend(table, person, chosen, catalog).value == Project(TopPerGenre(cands, Genres(cands)))
  {
  }

  /** Every recommended title is one the person has not rated. */
  lemma OutputUnwatched(table: CriticTable, person: PersonRatings, chosen: seq<Column>, catalog: Catalog)
    ensures var r := Recommend(table, person, chosen, catalog);
      r.Ok? ==> var out := r.value;
      forall i :: 0 <= i < |out| ==> PersonCell(person, out[i].title).None?
  {
    if Recommend(table, person, chosen, catalog).Ok? {
      OkIsSelection(table, person, chosen, catalog);
      var cols := [TitleColumn] + chosen;
      var cands := Candidates(table, person, cols, catalog);
      var sel := TopPerGenre(cands, Genres(cands));
      forall i | 0 <= i < |sel| ensures PersonCell(person, sel[i].title).None? {
        assert sel[i] in sel;
      }
    }
  }

  /** Every recommended title is in the catalog, has a primary genre, and shows the catalog's year and runtime. */
  lemma OutputInCatalog(table: CriticTable, person: PersonRatings, chosen: seq<Column>, catalog: Catalog)
    ensures var r := Recommend(table, person, chosen, catalog);
      r.Ok? ==> var out := r.value;
      forall i :: 0 <= i < |out| ==>
        var t := out[i].title;
        t in catalog && out[i].genre1.Some? && out[i].genre1 == catalog[t].genre1 &&
        out[i].year == catalog[t].year && out[i].runtime == catalog[t].runtime
  {
    if Recommend(table, person, chosen, catalog).Ok? {
      OkIsSelection(table, person, chosen, catalog);
      var cols := [TitleColumn] + chosen;
      var cands := Candidates(table, person, cols, catalog);
      var sel := TopPerGenre(cands, Genres(cands));
      forall i | 0 <= i < |sel|
        ensures sel[i].title in catalog && sel[i].movie == catalog[sel[i].title] && sel[i].movie.genre1.Some?
      {
        assert sel[i] in sel;
      }
    }
  }

  /** Every recommended rating is present and is the average of the chosen critics' ratings of a row with that title. */
  lemma OutputAverage(table: CriticTable, person: PersonRatings, chosen: seq<Column>, catalog: Catalog)
    ensures var r := Recommend(table, person, chosen, catalog);
      r.Ok? ==> var out := r.value;
      forall i :: 0 <= i < |out| ==>
        (out[i].rating.Some? &&
         exists k :: 0 <= k < |table.rows| && table.rows[k].title == out[i].title &&
           Average(table.rows[k], chosen) == out[i].rating)
  {
    if Recommend(table, person, chosen, catalog).Ok? {
      OkIsSelection(table, person, chosen, catalog);
      var cols := [TitleColumn] + chosen;
      var cands := Candidates(table, person, cols, catalog);
      var sel := TopPerGenre(cands, Genres(cands));
      forall i | 0 <= i < |sel|
        ensures sel[i].rating.Some? &&
          exists k :: 0 <= k < |table.rows| && table.rows[k].title == sel[i].title && Average(table.rows[k], chosen) == sel[i].rating
      {
        assert sel[i] in sel;
        var k :| 0 <= k < |table.rows| && table.rows[k].title == sel[i].title && Average(table.rows[k], cols) == sel[i].rating;
        AverageSkipsTitle(table.rows[k], chosen);
      }
    }
  }

  /** Every recommended movie has its genre's maximum average among the unwatched catalog movies. */
  lemma OutputMaximal(table: CriticTable, person: PersonRatings, chosen: seq<Column>, catalog: Catalog)
    ensures var r := Recommend(table, person, chosen, catalog);
      r.Ok? ==> var out := r.value;
      var cands := Candidates(table, person, [TitleColumn] + chosen, catalog);
      forall i :: 0 <= i < |out| ==>
        out[i].genre1.Some? && out[i].rating == GenreMax(cands, out[i].genre1.value) &&
        forall y :: y in cands && y.movie.genre1 == out[i].genre1 && y.rating.Some? ==> y.rating.value <= out[i].rating.value
  {
    if Recommend(table, person, chosen, catalog).Ok? {
      OkIsSelection(table, person, chosen, catalog);
      var cands := Candidates(table, person, [TitleColumn] + chosen, catalog);
      var sel := TopPerGenre(cands, Genres(cands));
      SelectedAreMaximal(cands);
      var out := Project(sel);
      forall i | 0 <= i < |out|
        ensures out[i].genre1 == sel[i].movie.genre1 && out[i].rating == sel[i].rating
      {
      }
    }
  }

  /** Every unwatched catalog movie whose average is its genre's maximum is recommended. */
  lemma OutputComplete(table: CriticTable, person: PersonRatings, chosen: seq<Column>, catalog: Catalog)
    ensures var r := Recommend(table, person, chosen, catalog);
      r.Ok? ==> var out := r.value;
      var cands := Candidates(table, person, [TitleColumn] + chosen, catalog);
      forall x :: x in cands && x.movie.genre1.Some? && x.rating.Some? &&
        (forall y :: y in cands && y.movie.genre1 == x.movie.genre1 && y.rating.Some? ==> y.rating.value <= x.rating.value)
        ==> ToRecord(x) in out
  {
    if Recommend(table, person, chosen, catalog).Ok? {
      OkIsSelection(table, person, chosen, catalog);
      var cands := Candidates(table, person, [TitleColumn] + chosen, catalog);
      var sel := TopPerGenre(cands, Genres(cands));
      var out := Project(sel);
      forall x | x in cands && x.movie.genre1.Some? && x.rating.Some? &&
          (forall y :: y in cands && y.movie.genre1 == x.movie.genre1 && y.rating.Some? ==> y.rating.value <= x.rating.value)
        ensures ToRecord(x) in out
      {
        MaximalAreSelected(cands, x);
        var k :| 0 <= k < |sel| && sel[k] == x;
        assert out[k] == ToRecord(x);
      }
    }
  }

  /** The records come grouped by genre in ascending genre order (the order of the group keys). */
  lemma OutputGenreOrder(table: CriticTable, person: PersonRatings, chosen: seq<Column>, catalog: Catalog)
    ensures var r := Recommend(table, person, chosen, catalog);
      r.Ok? ==> var out := r.value;
      (forall i :: 0 <= i < |out| ==> out[i].genre1.Some?) &&
      forall i, j :: 0 <= i < j < |out| ==> StrLe(out[i].genre1.value, out[j].genre1.value)
  {
    if Recommend(table, person, chosen, catalog).Ok? {
      OkIsSelection(table, person, chosen, catalog);
      var cands := Candidates(table, person, [TitleColumn] + chosen, catalog);
      TopPerGenreOrdered(cands, Genres(cands));
    }
  }

  // ---------------------------------------------------------------------
  // The call itself, on the caller's list object

  /** The caller's list of chosen critic names, which the call changes. */
  class CriticList {
    var names: seq<Column>

    constructor (names: seq<Column>)
      ensures this.names == names
    {
      this.names := names;
    }
  }

  /** Inserts `Title` at the front of the caller's list (kept even when the call then fails),
      then builds the output one genre group at a time. */
  method RecommendMovies(table: CriticTable, person: PersonRatings, chosen: CriticList, catalog: Catalog)
    returns (r: Result<seq<Recommendation>, Error>)
    modifies chosen
    ensures chosen.names == [TitleColumn] + old(chosen.names)
    ensures r == Recommend(table, person, old(chosen.names), catalog)
  {
    chosen.names := [TitleColumn] + chosen.names;
    var cols := chosen.names;
    if exists c :: c in cols && !KnownColumn(table, c) {
      return Err(UnknownColumns);
    }
    // a second `Title` column makes the merge key ambiguous
    if TitleColumn in cols[1..] {
      return Err(DuplicateTitle);
    }
    var cands := Candidates(table, person, cols, catalog);
    var genres := Genres(cands);
    var selected: seq<Candidate> := [];
    for i := 0 to |genres|
      invariant selected == TopPerGenre(cands, genres[..i])
    {
      var top := GenreMax(cands, genres[i]);
      selected := selected + Pick(cands, genres[i], top);
      assert genres[..i + 1][..i] == genres[..i];
    }
    // the discarded sort still needs a `Genre1` column, which an empty append never received
    if genres == [] {
      return Err(NoGenreGroups);
    }
    assert genres[..|genres|] == genres;
    r := Ok(Project(selected));
  }
}

=== FILE: tables.dfy ===
/**
 * The three input tables of the recommender, as already-parsed values:
 * the critics' ratings (one row per title, one column per critic), the
 * person's ratings (one value per title) and the movie catalog.
 * A blank cell is `None`; it is different from a rating of zero.
 */
module Tables {

  datatype Option<+T> = None | Some(value: T)

  datatype Result<+T, +E> = Ok(value: T) | Err(error: E)

  type Title = string
  type Column = string

  /** The key column every table shares. */
  const TitleColumn: Column := "Title"

  /** One row of the critics' table: its title and, per critic column, the cell. */
  datatype CriticRow = CriticRow(title: Title, cells: map<Column, Option<int>>)

  /** The critics' table: the critic columns in header order, and the rows in file order. */
  datatype CriticTable = CriticTable(critics: seq<Column>, rows: seq<CriticRow>)
  {
    /** Column headers are unique, and the key column is not a critic. */
    predicate Valid() {
      Distinct(critics) && TitleColumn !in critics
    }
  }

  /** The person's ratings: title to cell. */
  type PersonRatings = map<Title, Option<int>>

  /** The catalog columns the recommender reads; `genre1` is the primary genre. */
  datatype Movie = Movie(genre1: Option<string>, year: Option<int>, runtime: Option<int>)

  type Catalog = map<Title, Movie>

  predicate Distinct<T(==)>(s: seq<T>) {
    forall i, j :: 0 <= i < j < |s| ==> s[i] != s[j]
  }

  /** The critic cell of a row; a column the row does not carry reads as blank. */
  function Cell(row: CriticRow, c: Column): (r: Option<int>)
    ensures r.Some? ==> c in row.cells && row.cells[c] == r
  {
    if c in row.cells then row.cells[c] else None
  }

  /** The person's cell for a title; a title missing from the table reads as blank (left join). */
  function PersonCell(person: PersonRatings, t: Title): (r: Option<int>)
    ensures r.Some? <==> t in person && person[t].Some?
  {
    if t in person then person[t] else None
  }

  // Ordering of strings by code point, as Python compares `str` values.

  predicate StrLe(a: string, b: string) {
    a == [] || (b != [] && (a[0] < b[0] || (a[0] == b[0] && StrLe(a[1..], b[1..]))))
  }

  predicate StrLt(a: string, b: string) {
    StrLe(a, b) && a != b
  }

  lemma {:induction false} StrLeRefl(a: string)
    ensures StrLe(a, a)
  {
    if a != [] { StrLeRefl(a[1..]); }
  }

  lemma {:induction false} StrLeTotal(a: string, b: string)
    ensures StrLe(a, b) || StrLe(b, a)
  {
    if a != [] && b != [] && a[0] == b[0] { StrLeTotal(a[1..], b[1..]); }
  }

  lemma {:induction false} StrLeAntisym(a: string, b: string)
    requires StrLe(a, b) && StrLe(b, a)
    ensures a == b
  {
    if a != [] && b != [] {
      StrLeAntisym(a[1..], b[1..]);
      assert a == [a[0]] + a[1..] && b == [b[0]] + b[1..];
    }
  }

  lemma {:induction false} StrLeTrans(a: string, b: string, c: string)
    requires StrLe(a, b) && StrLe(b, c)
    ensures StrLe(a, c)
  {
    if a != [] && b != [] && c != [] && a[0] == b[0] && b[0] == c[0] {
      StrLeTrans(a[1..], b[1..], c[1..]);
    }
  }

  lemma StrLtTrans(a: string, b: string, c: string)
    requires StrLt(a, b) && StrLt(b, c)
    ensures StrLt(a, c)
  {
    StrLeTrans(a, b, c);
    if a == c { StrLeAntisym(a, b); }
  }

  /** Not `a <= b` means `b < a`. */
  lemma StrNotLe(a: string, b: string)
    requires !StrLe(a, b)
    ensures StrLt(b, a)
  {
  }
}
